=== FILE: README.md ===
# Face-Attendance System: role-based access and photo-check model

A Dafny model of the logic of a role-based attendance web application
(administrator, sub-administrator and student dashboards, plus a "face
recognition" attendance check). The model covers three connected parts:

- **The server's user handlers.** `Signup`, `saveFacePhoto` and
  `checkAttendance` are modelled as transitions over a map from user id to
  account. Each returns an HTTP status and message along with the new map.
  The attendance "match" is plain equality of the stored and submitted
  base64 text (server/Controllers/AuthController.js:53-54, which the code's
  own comment calls a mock comparison), and marking attendance writes
  nothing.
- **Client access control and routing.** This covers the route table, the
  route guard (spinner / redirect to `/login` / page), the sidebar menu
  filtered by role, and the four copies of the role-to-dashboard mapping
  (sidebar, navbar, sign-in page, generic dashboard page).
- **The mock authentication context and the sign-in page.** This covers the
  demo account table, case-insensitive sign-in, sign-out, restoring the
  session from storage, the demo buttons, the sign-up form's terms gate,
  and the navbar's avatar initials.

React state updates are read as plain assignments. The browser's
`"user"` storage entry is read as one optional value. Roles are strings,
because the code compares role strings and keeps a fallback branch for
any other value.

Files: `optional.dfy` (Option), `strings.dfy` (the JavaScript string
operations used), `auth_context.dfy`, `auth_guard.dfy`, `app_routes.dfy`,
`sidebar.dfy`, `navbar.dfy`, `login_page.dfy`, `dashboard_page.dfy`,
`auth_controller.dfy`, `role_consistency.dfy` (cross-component agreement).

## Model

| member | source | states |
|---|---|---|
| `AuthController.Signup` | server/Controllers/AuthController.js:5-21 | A registered e-mail gets "User already exists" with status 200 and the store unchanged. Otherwise exactly one account is added under the fresh id, with no photo, and the reply is 201 with success. Existing accounts are never altered. |
| `AuthController.SignupTwiceIsRefused` | server/Controllers/AuthController.js:8-11 | Signing up again with an address that was just registered is refused and changes nothing. |
| `AuthController.SaveFacePhoto` | server/Controllers/AuthController.js:27-41 | A missing or empty id or photo gives 400 with the store unchanged. An unknown id gives 404 with the store unchanged. Status 200 occurs exactly when both fields are present and the id is known. Then only that account's `photo` is replaced; every other account and field, and the key set, stay the same. |
| `AuthController.CheckAttendance` | server/Controllers/AuthController.js:43-63 | Never changes the store. A missing field gives 400. An unknown user, or one with no stored photo, gives 404. The reply is 200 with success exactly when the stored text equals the submitted text, and 401 with failure exactly when it differs. |
| `AuthController.SaveThenCheck` | server/Controllers/AuthController.js:33-59 | Round trip: after a successful save of `p`, checking with `p` gives 200, and checking with any other non-empty photo gives 401. |
| `AuthController.LastSaveWins` | server/Controllers/AuthController.js:33-59 | After two saves, only the second photo matches. |
| `AuthController.SaveIsIdempotent` | server/Controllers/AuthController.js:29-37 | Repeating the same save request gives the same reply and store as doing it once. |
| `AuthController.HandlersKeepEmailsUnique` | server/Controllers/AuthController.js:8-12 | If no two accounts share an e-mail before a request, that still holds after any of the three handlers. |
| `AuthContext.FindFrom` | client/src/contexts/AuthContext.tsx:72-74 | `find` returns the index of the first row whose e-mail matches ignoring case and whose password matches exactly. It returns nothing exactly when no row matches. |
| `AuthContext.Login` | client/src/contexts/AuthContext.tsx:66-87 | Succeeds exactly when some demo row matches. On success, the user is that row without its password, the same record goes to storage, and loading ends. On failure, it throws "Invalid email or password", leaves the user and storage unchanged, and leaves loading set. |
| `AuthContext.Matches` | client/src/contexts/AuthContext.tsx:72-74 | A row matches exactly when the password is equal and the e-mails have the same length and agree character by character after lower-casing. |
| `AuthContext.IsAuthenticated` | client/src/contexts/AuthContext.tsx:96 | `!!user`: authenticated exactly when a user record is held. When it holds over the context's life is stated by `AuthContext.AuthenticationLifecycle`. |
| `AuthContext.AuthenticationLifecycle` | client/src/contexts/AuthContext.tsx:54-96 | Never authenticated before mounting. After mounting, authenticated exactly when storage or the context held a user. After `login`, exactly when it succeeded or a user was already signed in. Never after `logout`. |
| `AuthContext.MockEmailsDistinct` | client/src/contexts/AuthContext.tsx:26-51 | No two demo e-mail addresses are equal ignoring case. |
| `AuthContext.LoginSignsInTheMatch` | client/src/contexts/AuthContext.tsx:72-80 | At most one row can match. A successful sign-in signs in exactly that row, stripped of its password. |
| `AuthContext.LoginIgnoresEmailCase` | client/src/contexts/AuthContext.tsx:73 | Two e-mails that are equal ignoring case give identical sign-in outcomes. |
| `AuthContext.Logout` | client/src/contexts/AuthContext.tsx:89-93 | Afterwards nobody is signed in and the storage entry is gone. The loading flag is left unchanged. |
| `AuthContext.LoginThenLogout` | client/src/contexts/AuthContext.tsx:76-96 | After a successful sign-in the user is authenticated (`!!user`). Signing out then leaves no user, no storage entry and no loading. |
| `AuthContext.Initial` | client/src/contexts/AuthContext.tsx:54-55 | Before mounting, nobody is authenticated and the context is loading. |
| `AuthContext.Mount` | client/src/contexts/AuthContext.tsx:57-64 | Mounting ends loading. It adopts the stored user if one exists and otherwise keeps the current user. |
| `AuthContext.StorageSurvivesReload` | client/src/contexts/AuthContext.tsx:57-64 | Round trip through storage: after a successful sign-in, a fresh context that mounts has the same user. After a sign-out it has nobody. |
| `AuthContext.Strip` | client/src/contexts/AuthContext.tsx:77 | The password-free record keeps every other field of the row. |
| `Strings.ToLowerIdempotent` | client/src/contexts/AuthContext.tsx:73 | Lower-casing is idempotent, so the e-mail comparison is a case-insensitive equivalence. |
| `AuthGuard.CheckAuth` | client/src/components/auth/AuthGuard.tsx:16-30 | Grants access exactly when the context is not loading, the visitor is authenticated, and either there is no role list, there is no user record, or the list contains the user's role. |
| `AuthGuard.Guard` | client/src/components/auth/AuthGuard.tsx:32-47 | The spinner is shown exactly while loading. An unauthenticated visitor is redirected to `/login`, with `replace`, carrying the original location. An authenticated user gets the page exactly when there is no role list or the list contains their role. Every other outcome is that same redirect. |
| `AuthGuard.EmptyRoleListDeniesEveryone` | client/src/components/auth/AuthGuard.tsx:25 | An empty role list is truthy and includes nothing, so it denies every user. |
| `AuthGuard.NoRoleListAdmitsEveryUser` | client/src/components/auth/AuthGuard.tsx:25-29 | Without a role list, every authenticated user gets the page. |
| `AuthGuard.FailedLoginKeepsGuardSpinning` | client/src/contexts/AuthContext.tsx:57-93 | A failed sign-in leaves the context loading, so every guarded page shows the spinner, even for a user who was signed in before. Signing out does not clear this. The next successful sign-in, or a reload (the mount effect), does. |
| `AppRoutes.LookupFrom` | client/src/App.tsx:33-91 | Finds the first listed route with exactly the given path, or reports that none exists. |
| `AppRoutes.Resolve` | client/src/App.tsx:33-91 | The route shown is the first listed route with the path. When no listed route has the path, it is the `*` catch-all. |
| `AppRoutes.Visit` | client/src/App.tsx:33-91 | A public route shows its page. A guarded route shows the spinner, the redirect or the page, exactly as the guard decides. |
| `AppRoutes.VisitSignedIn` | client/src/App.tsx:40-82 | Once loading is over, a signed-in user sees a page exactly when its route admits their role. Otherwise they are redirected to `/login`. |
| `AppRoutes.PublicPagesAreOpen` | client/src/App.tsx:34-37 | `/`, `/home`, `/login` and `/about` render in every context state. |
| `AppRoutes.DashboardNeedsOnlySignIn` | client/src/App.tsx:40-47 | Once loading is over, `/dashboard` renders exactly for authenticated users, of any role. Anyone else is redirected to `/login`. |
| `AppRoutes.RoleDashboardsAreExclusive` | client/src/App.tsx:50-73 | Each role dashboard admits exactly its own role. |
| `AppRoutes.FaceRecognitionIsForStaff` | client/src/App.tsx:75-82 | `/face-recognition` admits exactly administrators and sub-administrators, never students. |
| `AppRoutes.UnbuiltAndUnlistedPathsAreNotFound` | client/src/App.tsx:85-91 | `/features`, `/pricing`, `/contact`, `/documentation` and every unlisted path render the not-found page. |
| `Sidebar.DashboardPath` | client/src/components/layout/Sidebar.tsx:204-217 | With no user, `/dashboard`. Otherwise the administrator, sub-administrator and student dashboards for the three roles, and `/dashboard` for any other role. |
| `Sidebar.KeepAllowed` | client/src/components/layout/Sidebar.tsx:233-235 | The filtered menu is never longer than the table. |
| `Sidebar.KeepAllowedExactlyAdmitted` | client/src/components/layout/Sidebar.tsx:233-235 | An entry survives the filter exactly when its role list includes the role. |
| `Sidebar.KeepAllowedDistributes` | client/src/components/layout/Sidebar.tsx:233-235 | Filtering distributes over concatenation. Together with `KeepAllowedSingle`, this makes it the order-preserving sub-sequence of admitted entries. |
| `Sidebar.KeepAllowedSingle` | client/src/components/layout/Sidebar.tsx:234 | A single entry is kept exactly when its role list includes the role. |
| `Sidebar.KeepAllowedAll` | client/src/components/layout/Sidebar.tsx:233-235 | When every entry admits the role, the filter leaves the list exactly as it was. |
| `Sidebar.RewriteDashboard` | client/src/components/layout/Sidebar.tsx:235-244 | Same length as its input. Only entries titled "Dashboard" change, and only their `path`. |
| `Sidebar.RewriteDashboardMembers` | client/src/components/layout/Sidebar.tsx:235-244 | Every non-dashboard entry passes through the rewrite unchanged. Every dashboard entry comes out re-pointed, and nothing else comes out. |
| `Sidebar.FilteredItems` | client/src/components/layout/Sidebar.tsx:233-244 | Empty when nobody is signed in. Every shown entry admits the user's role. Every admitted non-dashboard entry is shown exactly as in the table. The "Dashboard" entry is shown, re-pointed to the user's dashboard, whenever it admits the role. The menu has exactly as many entries as the role filter keeps, so nothing is shown twice. The order is pinned by the three per-role menu lemmas. |
| `Sidebar.AdminMenu` | client/src/components/layout/Sidebar.tsx:56-169 | An administrator's menu is, in order: Dashboard (pointing at `/admin/dashboard`), My Profile, User Management, Face Recognition, Attendance, Reports and Settings. |
| `Sidebar.SubAdminMenu` | client/src/components/layout/Sidebar.tsx:56-169 | A sub-administrator's menu is, in order: Dashboard (pointing at `/subadmin/dashboard`), My Profile, Face Recognition, Attendance, Reports and Settings. |
| `Sidebar.StudentMenu` | client/src/components/layout/Sidebar.tsx:56-169 | A student's menu is, in order: Dashboard (pointing at `/student/dashboard`), My Profile, Attendance and Settings. |
| `Sidebar.AdminSeesEverySection` | client/src/components/layout/Sidebar.tsx:56-169 | Administrators keep all seven sections, in table order. |
| `Sidebar.SubAdminSeesAllButUserManagement` | client/src/components/layout/Sidebar.tsx:56-169 | Sub-administrators keep every section except User Management, in order. |
| `Sidebar.StudentSeesFourSections` | client/src/components/layout/Sidebar.tsx:56-169 | Students keep Dashboard, My Profile, Attendance and Settings, in order. |
| `Sidebar.UnknownRoleSeesNothing` | client/src/components/layout/Sidebar.tsx:233-235 | A role outside the three sees an empty menu. |
| `Sidebar.ToggleExpand` | client/src/components/layout/Sidebar.tsx:219-224 | Flips the expanded state of that title only; a missing key counts as collapsed. Every other title keeps its value, and the title becomes a key. |
| `Sidebar.ToggleTwiceRestores` | client/src/components/layout/Sidebar.tsx:219-224 | Toggling the same section twice restores the expanded state of every section. |
| `Sidebar.IsActiveSection` | client/src/components/layout/Sidebar.tsx:227-230 | A section is active exactly when it has sub-entries and one of them is at the current path. An active section always has at least one sub-entry. |
| `Sidebar.LeafSectionsNeverActive` | client/src/components/layout/Sidebar.tsx:56-169 | The Dashboard and Settings sections, which have no sub-entries, are never active, whatever the page. |
| `Sidebar.AutoExpand` | client/src/components/layout/Sidebar.tsx:227-256 | Every listed section that has a sub-entry at the current path becomes expanded. Every key not belonging to such a section keeps its value, and no key is lost. |
| `Sidebar.IsActivePath` | client/src/components/layout/Sidebar.tsx:259-268 | Every path is active on itself. Otherwise a path is active only on the user's dashboard, and there exactly when the path contains `/dashboard`. |
| `Sidebar.MenuActiveIsExactMatch` | client/src/components/layout/Sidebar.tsx:259-268 | In the menu as built, every entry is active exactly on its own path. Only the "Dashboard" entry's path mentions `/dashboard`, and that path already is the user's dashboard. |
| `Strings.ContainsIffOccurs` | client/src/components/layout/Sidebar.tsx:261 | `includes` holds exactly when the pattern occurs at some index. |
| `Strings.SplitJoinRoundTrip` | client/src/components/layout/Navbar.tsx:72 | Joining the pieces of `split(" ")` with a space gives the name back. There is one more piece than there are spaces. |
| `Strings.HeadsOfSplit` | client/src/components/layout/Navbar.tsx:72-74 | Taking the first character of every split piece, with empty pieces giving nothing, yields exactly the characters that start a word. |
| `Navbar.GetInitials` | client/src/components/layout/Navbar.tsx:70-76 | The initials are the upper-cased word-start characters, in order, and contain no space. In the model, with whole characters and one-to-one upper-casing, there are at most as many initials as split pieces; the program's own output can be longer (see "Left out"). |
| `Navbar.InitialsExample` | client/src/components/layout/Navbar.tsx:70-76 | `"ab cd"` gives `"AC"`. |
| `Navbar.AvatarFallback` | client/src/components/layout/Navbar.tsx:315 | `"U"` when there is no user or the name is empty. Otherwise the initials of the name. |
| `Navbar.BlankNameGivesEmptyAvatar` | client/src/components/layout/Navbar.tsx:315 | The avatar text is empty exactly when the name is non-empty and made only of spaces: such a name is truthy, so it skips the `"U"` fallback, but it has no initials. |
| `Strings.NoWordStartsIffAllSeparators` | client/src/components/layout/Navbar.tsx:72-74 | A text has no word-start characters exactly when every character is the separator. |
| `Navbar.IsActive` | client/src/components/layout/Navbar.tsx:79-81 | A link is active exactly on its own path. Its relation to the sidebar's test is stated by `RoleConsistency.ActiveTestsAgreeOffDashboard`. |
| `Navbar.DashboardPath` | client/src/components/layout/Navbar.tsx:84-97 | Always one of the four dashboard paths. |
| `LoginPage.RedirectEffect` | client/src/pages/Login.tsx:28-47 | The effect does nothing unless the success flag and a user are both set. Then it clears the flag and navigates to one of the four dashboard paths. |
| `LoginPage.FreshPageDoesNotRedirect` | client/src/pages/Login.tsx:13-47 | The page starts with every field empty and every flag cleared, so opening it never redirects, even for a visitor who is already signed in. |
| `LoginPage.SignIn` | client/src/pages/Login.tsx:49-60 | The context moves as `login` says. On success the success flag is raised and the page stays busy. On failure the page's busy flag is cleared. |
| `LoginPage.HandleSubmit` | client/src/pages/Login.tsx:49-60 | The success flag ends up set exactly when it already was or the typed credentials sign in. The typed fields are kept. |
| `LoginPage.DemoEmail` | client/src/pages/Login.tsx:97-110 | Each role gets its own demo address. Any role other than sub-administrator or student gets the administrator's. |
| `LoginPage.HandleDemo` | client/src/pages/Login.tsx:95-118 | Signs in with the role's demo address and the demo password. The typed fields are not touched. |
| `LoginPage.HandleSignup` | client/src/pages/Login.tsx:62-93 | Without the terms box nothing changes and no account is announced. With it, the name, e-mail, password and both boxes are cleared and the form is not busy. The sign-in fields and flags are never touched. |
| `LoginPage.SignupClosesTheGate` | client/src/pages/Login.tsx:65-87 | After an accepted sign-up, submitting again without re-ticking the terms box is refused. |
| `DashboardPage.Redirect` | client/src/pages/Dashboard.tsx:10-28 | With no user, no navigation. It navigates exactly for the three known roles, always with `replace`, and never to `/dashboard` itself. |
| `RoleConsistency.NavbarAgreesWithSidebar` | client/src/components/layout/Navbar.tsx:84-97 | The navbar's dashboard mapping is the same function as the sidebar's. |
| `RoleConsistency.LoginRedirectAgreesWithSidebar` | client/src/pages/Login.tsx:29-43 | After a successful sign-in, the sign-in page navigates to the sidebar's dashboard path for the user. |
| `RoleConsistency.DashboardPageAgreesWithSidebar` | client/src/pages/Dashboard.tsx:11-25 | For the three roles, the generic dashboard page forwards to the sidebar's target with `replace`. Any other role stays, and the sidebar also sends it to `/dashboard`. |
| `RoleConsistency.DashboardAdmitsItsUser` | client/src/App.tsx:40-73 | For every user, the dashboard path they are sent to is a route that admits their role. |
| `RoleConsistency.DashboardPageFor` | client/src/App.tsx:50-73 | Known roles have their own dashboard page. Any other role uses the generic one. |
| `RoleConsistency.VisitingOwnDashboard` | client/src/App.tsx:40-73 | Once loading is over, a signed-in user who visits their dashboard sees their role's dashboard page, never a redirect. |
| `RoleConsistency.DemoLoginSucceeds` | client/src/pages/Login.tsx:97-113 | Every demo address with the demo password signs in, as the account of the requested role. Any other role signs in as the administrator. |
| `RoleConsistency.DemoButtonLandsOnOwnDashboard` | client/src/pages/Login.tsx:95-118 | A demo button followed by the redirect effect navigates to a dashboard that renders for the signed-in account, and clears the success flag. |
| `RoleConsistency.ActiveTestsAgreeOffDashboard` | client/src/components/layout/Navbar.tsx:79-81 | For paths that do not mention `/dashboard`, the sidebar's active test is the navbar's exact match. |

## Left out

- The `500` replies of `saveFacePhoto` and `checkAttendance` are not modelled (server/Controllers/AuthController.js:38-40, 60-62). They come from database exceptions, including the cast error Mongoose raises for a malformed ObjectId.
- The session token and its cookie are not modelled (server/Controllers/AuthController.js:13-17). They are foreign calls. No password is hashed in this controller: `bcrypt` is imported (line 3) but never called here. Any hashing would happen in the user schema; server/Models/UserModel.js is not part of this model.
- The database's choice of a new id is not modelled; `Signup` takes the fresh id as a parameter.
- AuthController.Signup: always replies, with 200 or 201. In the program a rejected `User.create` (a missing required field, a validation or database error) falls into a `catch` that only logs (server/Controllers/AuthController.js:22-24), so the request is never answered; the model has no such outcome. It also takes `email`, `password`, `username` and `createdAt` as always-present strings, so it does not model what the database does with a missing or non-string field. The created `user` record sent back in the 201 reply (line 20) is not part of the modelled reply, and neither is the `next()` call made after replying (line 21).
- AuthController.SaveFacePhoto: the updated `user` record sent back in the 200 reply (server/Controllers/AuthController.js:37) is not part of the modelled reply; only the status, the message and the new store are.
- Request fields that are present but not strings (numbers, objects) are not modelled. Only "absent" and "string" are.
- The Express route wiring (server/Routes/AuthRoute.js) is not modelled, because it only binds handlers to URLs.
- AuthController.HandlersKeepEmailsUnique: the server's requests are modelled one at a time, each a single step on the store. In the program, `Signup` awaits the look-up (server/Controllers/AuthController.js:8) and only then the insert (line 12). Two overlapping sign-ups with the same address can both pass the look-up before either inserts. Uniqueness then depends on a unique index in the database schema, which is not part of this model.
- Toasts, the one-second simulated delay, React effect scheduling and re-rendering are not modelled. Each handler is read as a sequence of assignments.
- Icons, tooltips, layout open/closed state and styling are not modelled.
- The webcam capture, upload and simulated recognition (client/src/components/webcam/FaceRecognition.tsx) are browser I/O and a timer that returns fixed data.
- The presentational pages and dashboards are not modelled. StudentDashboard's copy of `getInitials` and its floating-point percentage are also left out.
- Strings.ToLower: lowercases only ASCII letters. JavaScript's `toLowerCase` is Unicode-wide. The demo addresses are ASCII, but a non-ASCII input that lowercases to ASCII is not modelled.
- Strings.ToUpper: upper-cases only ASCII letters. A name's non-ASCII initials are kept as typed rather than upper-cased.
- Navbar.GetInitials: works on whole characters with one-to-one ASCII upper-casing. JavaScript's `n[0]` takes one UTF-16 code unit, so for `"😀 Bob"` the program yields a lone high surrogate followed by `"B"`, where the model yields `"😀B"`. JavaScript's `toUpperCase` uses full case mapping, so for `"ßa b"` the program yields `"SSB"`, three characters from two pieces, where the model yields `"ßB"`. The bound of at most one initial per split piece holds for the model only.
- AppRoutes.Resolve: matches paths exactly. The router's case-insensitive matching and its tolerance of trailing slashes are not modelled.
- AuthGuard.Guard: the redirect carries the original pathname only, not the whole location object.

=== FILE: app_routes.dfy ===
/** The application's route table: public pages, the generic `/dashboard`,
    one dashboard per role, the face-recognition page, four placeholder
    pages, and the `*` catch-all. */
module AppRoutes {
  import opened Optional
  import opened AuthContext
  import opened AuthGuard

  datatype Page =
    | LandingPage | HomePage | LoginPage | AboutPage | DashboardPage
    | AdminDashboardPage | SubAdminDashboardPage | StudentDashboardPage
    | FaceRecognitionPage | NotFoundPage

  /** A route is either open to anyone or wrapped in the guard, with or without a role list. */
  datatype Access = Public | Guarded(allowedRoles: Option<seq<string>>)

  datatype Route = Route(path: string, access: Access, page: Page)

  const DASHBOARD: string := "/dashboard"
  const ADMIN_DASHBOARD: string := "/admin/dashboard"
  const SUB_ADMIN_DASHBOARD: string := "/subadmin/dashboard"
  const STUDENT_DASHBOARD: string := "/student/dashboard"
  const FACE_RECOGNITION: string := "/face-recognition"

  const ROUTES: seq<Route> := [
    Route("/", Public, LandingPage),
    Route("/home", Public, HomePage),
    Route(LOGIN_PATH, Public, LoginPage),
    Route("/about", Public, AboutPage),
    Route(DASHBOARD, Guarded(None), DashboardPage),
    Route(ADMIN_DASHBOARD, Guarded(Some([ADMIN])), AdminDashboardPage),
    Route(SUB_ADMIN_DASHBOARD, Guarded(Some([SUB_ADMIN])), SubAdminDashboardPage),
    Route(STUDENT_DASHBOARD, Guarded(Some([STUDENT])), StudentDashboardPage),
    Route(FACE_RECOGNITION, Guarded(Some([ADMIN, SUB_ADMIN])), FaceRecognitionPage),
    Route("/features", Public, NotFoundPage),
    Route("/pricing", Public, NotFoundPage),
    Route("/contact", Public, NotFoundPage),
    Route("/documentation", Public, NotFoundPage)
  ]

  const CATCH_ALL: Route := Route("*", Public, NotFoundPage)

  /** The index of the first route of `routes`, from `from` on, whose path is `pathname`. */
  function LookupFrom(routes: seq<Route>, pathname: string, from: nat): (r: Option<nat>)
    requires from <= |routes|
    ensures r.Some? ==> from <= r.value < |routes| && routes[r.value].path == pathname
    ensures r.Some? ==> forall j :: from <= j < r.value ==> routes[j].path != pathname
    ensures r.None? <==> forall j :: from <= j < |routes| ==> routes[j].path != pathname
    decreases |routes| - from
  {
    if from == |routes| then None
    else if routes[from].path == pathname then Some(from)
    else LookupFrom(routes, pathname, from + 1)
  }

  /** `ROUTES[k]` is the first listed route with path `pathname`. */
  predicate FirstWithPath(k: int, pathname: string) {
    && 0 <= k < |ROUTES|
    && ROUTES[k].path == pathname
    && forall j :: 0 <= j < k ==> ROUTES[j].path != pathname
  }

  /** The route that renders at `pathname`: the first listed one with that
      exact path, or the catch-all when none is listed. */
  function Resolve(pathname: string): (r: Route)
    ensures r in ROUTES ==> r.path == pathname
    ensures r == CATCH_ALL <==> forall j :: 0 <= j < |ROUTES| ==> ROUTES[j].path != pathname
    ensures forall k :: FirstWithPath(k, pathname) ==> r == ROUTES[k]
  {
    match LookupFrom(ROUTES, pathname, 0)
    case Some(i) => ROUTES[i]
    case None => CATCH_ALL
  }

  /** What the visitor sees at a path. */
  datatype Screen = Show(page: Page) | Loading | Redirected(to: string, fromPath: string, replace: bool)

  /** Rendering `pathname` for the context state `auth`: public routes show
      their page; guarded ones go through the guard. */
  function Visit(pathname: string, auth: AuthState): (s: Screen)
    ensures Resolve(pathname).access.Public? ==> s == Show(Resolve(pathname).page)
    ensures Resolve(pathname).access.Guarded? ==>
      match Guard(auth, Resolve(pathname).access.allowedRoles, pathname)
      case Spinner => s == Loading
      case Redirect(to, fromPath, replace) => s == Redirected(to, fromPath, replace)
      case Children => s == Show(Resolve(pathname).page)
  {
    var route := Resolve(pathname);
    match route.access
    case Public => Show(route.page)
    case Guarded(roles) =>
      match Guard(auth, roles, pathname)
      case Spinner => Loading
      case Redirect(to, fromPath, replace) => Redirected(to, fromPath, replace)
      case Children => Show(route.page)
  }

  /** The route at `pathname` lets a signed-in user with `role` in. */
  predicate Admits(pathname: string, role: string) {
    var route := Resolve(pathname);
    route.access.Public? || route.access.allowedRoles.None? || role in route.access.allowedRoles.value
  }

  /** Once loading is over, a signed-in user sees the page at `pathname`
      exactly when the route admits their role, and otherwise is sent to
      the sign-in page. */
  lemma VisitSignedIn(pathname: string, auth: AuthState)
    requires !auth.isLoading && auth.user.Some?
    ensures Admits(pathname, auth.user.value.role) <==> Visit(pathname, auth) == Show(Resolve(pathname).page)
    ensures !Admits(pathname, auth.user.value.role) ==> Visit(pathname, auth) == Redirected(LOGIN_PATH, pathname, true)
  {
  }

  /** The public pages render whatever the state of the context. */
  lemma PublicPagesAreOpen(auth: AuthState)
    ensures Visit("/", auth) == Show(LandingPage)
    ensures Visit("/home", auth) == Show(HomePage)
    ensures Visit(LOGIN_PATH, auth) == Show(LoginPage)
    ensures Visit("/about", auth) == Show(AboutPage)
  {
    assert FirstWithPath(0, "/");
    assert FirstWithPath(1, "/home");
    assert FirstWithPath(2, LOGIN_PATH);
    assert FirstWithPath(3, "/about");
  }

  /** `/dashboard` wants a signed-in user of any role. */
  lemma DashboardNeedsOnlySignIn(auth: AuthState)
    requires !auth.isLoading
    ensures Visit(DASHBOARD, auth) == Show(DashboardPage) <==> IsAuthenticated(auth)
    ensures !IsAuthenticated(auth) ==> Visit(DASHBOARD, auth) == Redirected(LOGIN_PATH, DASHBOARD, true)
  {
    assert FirstWithPath(4, DASHBOARD);
  }

  /** Each role dashboard admits its own role and no other. */
  lemma RoleDashboardsAreExclusive(role: string)
    ensures Admits(ADMIN_DASHBOARD, role) <==> role == ADMIN
    ensures Admits(SUB_ADMIN_DASHBOARD, role) <==> role == SUB_ADMIN
    ensures Admits(STUDENT_DASHBOARD, role) <==> role == STUDENT
  {
    assert FirstWithPath(5, ADMIN_DASHBOARD);
    assert FirstWithPath(6, SUB_ADMIN_DASHBOARD);
    assert FirstWithPath(7, STUDENT_DASHBOARD);
  }

  /** Face recognition is for administrators and sub-administrators only. */
  lemma FaceRecognitionIsForStaff(role: string)
    ensures Admits(FACE_RECOGNITION, role) <==> role == ADMIN || role == SUB_ADMIN
    ensures !Admits(FACE_RECOGNITION, STUDENT)
  {
    assert FirstWithPath(8, FACE_RECOGNITION);
  }

  /** The four placeholder pages, and every path the table does not list,
      render the not-found page. */
  lemma UnbuiltAndUnlistedPathsAreNotFound(pathname: string, auth: AuthState)
    requires pathname in {"/features", "/pricing", "/contact", "/documentation"}
          || forall j :: 0 <= j < |ROUTES| ==> ROUTES[j].path != pathname
    ensures Visit(pathname, auth) == Show(NotFoundPage)
  {
    if pathname == "/features" {
      assert FirstWithPath(9, pathname);
    } else if pathname == "/pricing" {
      assert FirstWithPath(10, pathname);
    } else if pathname == "/contact" {
      assert FirstWithPath(11, pathname);
    } else if pathname == "/documentation" {
      assert FirstWithPath(12, pathname);
    }
  }
}

=== FILE: auth_context.dfy ===
/** The client's mock authentication context: the `UserRole` names, the fixed
    table of demo accounts, `login`, `logout`, the restore-on-mount effect and
    `isAuthenticated`. React state updates are read as plain assignments and
    the `"user"` entry of local storage as one optional value. */
module AuthContext {
  import opened Optional
  import opened Strings

  const ADMIN: string := "admin"
  const SUB_ADMIN: string := "sub-admin"
  const STUDENT: string := "student"

  /** The three members of the `UserRole` union. A role read back from
      storage is an arbitrary string, so callers keep a fallback branch. */
  predicate IsUserRole(role: string) {
    role == ADMIN || role == SUB_ADMIN || role == STUDENT
  }

  /** The signed-in user as the application sees it: never a password. */
  datatype User = User(id: string, name: string, email: string, role: string, avatar: Option<string>)

  /** A row of the demo account table, which does hold a plain password. */
  datatype MockUser = MockUser(id: string, name: string, email: string, password: string, role: string, avatar: Option<string>)

  /** The record without its password, as produced by `{ password, ...rest }`. */
  function Strip(m: MockUser): (u: User)
    ensures u.id == m.id && u.name == m.name && u.email == m.email
    ensures u.role == m.role && u.avatar == m.avatar
  {
    User(m.id, m.name, m.email, m.role, m.avatar)
  }

  const DEMO_PASSWORD: string := "password"
  const ADMIN_EMAIL: string := "admin@example.com"
  const SUB_ADMIN_EMAIL: string := "subadmin@example.com"
  const STUDENT_EMAIL: string := "student@example.com"
  const LOGIN_ERROR: string := "Invalid email or password"

  const MOCK_USERS: seq<MockUser> := [
    MockUser("1", "Admin User", ADMIN_EMAIL, DEMO_PASSWORD, ADMIN,
             Some("https://api.dicebear.com/7.x/avataaars/svg?seed=admin")),
    MockUser("2", "Sub Admin", SUB_ADMIN_EMAIL, DEMO_PASSWORD, SUB_ADMIN,
             Some("https://api.dicebear.com/7.x/avataaars/svg?seed=subadmin")),
    MockUser("3", "Student User", STUDENT_EMAIL, DEMO_PASSWORD, STUDENT,
             Some("https://api.dicebear.com/7.x/avataaars/svg?seed=student"))
  ]

  /** The lookup predicate of `login`: e-mail equal up to case, password equal exactly. */
  predicate Matches(m: MockUser, email: string, password: string): (r: bool)
    ensures r <==>
      && m.password == password
      && |m.email| == |email|
      && forall i :: 0 <= i < |email| ==> LowerChar(m.email[i]) == LowerChar(email[i])
  {
    ToLower(m.email) == ToLower(email) && m.password == password
  }

  /** `users.find(...)` from index `from` on: the index of the first matching row. */
  function FindFrom(users: seq<MockUser>, email: string, password: string, from: nat): (r: Option<nat>)
    requires from <= |users|
    ensures r.Some? ==> from <= r.value < |users| && Matches(users[r.value], email, password)
    ensures r.Some? ==> forall j :: from <= j < r.value ==> !Matches(users[j], email, password)
    ensures r.None? <==> forall j :: from <= j < |users| ==> !Matches(users[j], email, password)
    decreases |users| - from
  {
    if from == |users| then None
    else if Matches(users[from], email, password) then Some(from)
    else FindFrom(users, email, password, from + 1)
  }

  /** What the context holds: the current user, the `"user"` storage entry and the loading flag. */
  datatype AuthState = AuthState(user: Option<User>, stored: Option<User>, isLoading: bool)

  /** `isAuthenticated: !!user`. */
  predicate IsAuthenticated(s: AuthState) {
    s.user.Some?
  }

  /** State before the mount effect has run: no user and still loading; the
      storage entry is whatever the browser kept. */
  function Initial(stored: Option<User>): (s: AuthState)
    ensures !IsAuthenticated(s) && s.isLoading && s.stored == stored
  {
    AuthState(None, stored, true)
  }

  /** The mount effect: adopt the stored user if there is one, then stop loading. */
  function Mount(s: AuthState): (r: AuthState)
    ensures !r.isLoading && r.stored == s.stored
    ensures r.user == (if s.stored.Some? then s.stored else s.user)
  {
    AuthState(if s.stored.Some? then s.stored else s.user, s.stored, false)
  }

  /** The result of `login`: the new state, and the message it throws, if any. */
  datatype LoginOutcome = LoginOutcome(state: AuthState, error: Option<string>)

  /** `login(email, password)`: set loading, look the pair up; on a match store
      the stripped record as user and under `"user"`, then stop loading; on no
      match throw, which skips the final `setIsLoading(false)`. */
  function Login(s: AuthState, email: string, password: string): (r: LoginOutcome)
    ensures r.error.None? <==> exists i :: 0 <= i < |MOCK_USERS| && Matches(MOCK_USERS[i], email, password)
    ensures r.error.None? ==>
      && r.state.user.Some?
      && r.state.stored == r.state.user
      && !r.state.isLoading
      && exists i :: 0 <= i < |MOCK_USERS| && Matches(MOCK_USERS[i], email, password)
                     && r.state.user.value == Strip(MOCK_USERS[i])
    ensures r.error.Some? ==>
      && r.error.value == LOGIN_ERROR
      && r.state.user == s.user
      && r.state.stored == s.stored
      && r.state.isLoading
  {
    var loading := s.(isLoading := true);
    match FindFrom(MOCK_USERS, email, password, 0)
    case Some(i) =>
      var u := Strip(MOCK_USERS[i]);
      LoginOutcome(AuthState(Some(u), Some(u), false), None)
    case None =>
      LoginOutcome(loading, Some(LOGIN_ERROR))
  }

  /** `logout()`: forget the user and remove the storage entry; loading is untouched. */
  function Logout(s: AuthState): (r: AuthState)
    ensures !IsAuthenticated(r) && r.stored.None? && r.isLoading == s.isLoading
  {
    AuthState(None, None, s.isLoading)
  }

  /** No two demo accounts share an e-mail address up to case. */
  lemma MockEmailsDistinct()
    ensures forall i, j :: 0 <= i < j < |MOCK_USERS| ==> ToLower(MOCK_USERS[i].email) != ToLower(MOCK_USERS[j].email)
  {
    var a := ToLower(ADMIN_EMAIL);
    var b := ToLower(SUB_ADMIN_EMAIL);
    var c := ToLower(STUDENT_EMAIL);
    assert a[0] == 'a' && b[0] == 's';
    assert a[0] == 'a' && c[0] == 's';
    assert b[1] == 'u' && c[1] == 't';
  }

  /** Hence at most one account matches a given pair, and a successful login
      signs in exactly that account. */
  lemma LoginSignsInTheMatch(s: AuthState, email: string, password: string, i: nat)
    requires i < |MOCK_USERS| && Matches(MOCK_USERS[i], email, password)
    ensures forall j :: 0 <= j < |MOCK_USERS| && Matches(MOCK_USERS[j], email, password) ==> j == i
    ensures Login(s, email, password) == LoginOutcome(AuthState(Some(Strip(MOCK_USERS[i])), Some(Strip(MOCK_USERS[i])), false), None)
  {
    MockEmailsDistinct();
  }

  /** The e-mail comparison ignores case: whichever capitalisation of a demo
      address is typed, the same account signs in. */
  lemma LoginIgnoresEmailCase(s: AuthState, email: string, email': string, password: string)
    requires ToLower(email) == ToLower(email')
    ensures Login(s, email, password) == Login(s, email', password)
  {
    forall i | 0 <= i < |MOCK_USERS|
      ensures Matches(MOCK_USERS[i], email, password) == Matches(MOCK_USERS[i], email', password)
    {
    }
    if exists i :: 0 <= i < |MOCK_USERS| && Matches(MOCK_USERS[i], email, password) {
      var i :| 0 <= i < |MOCK_USERS| && Matches(MOCK_USERS[i], email, password);
      LoginSignsInTheMatch(s, email, password, i);
      LoginSignsInTheMatch(s, email', password, i);
    }
  }

  /** Signing in and then out: authenticated in between, signed out after,
      with nothing left in storage. */
  lemma LoginThenLogout(s: AuthState, email: string, password: string)
    requires Login(s, email, password).error.None?
    ensures IsAuthenticated(Login(s, email, password).state)
    ensures Logout(Login(s, email, password).state) == AuthState(None, None, false)
  {
  }

  /** When `isAuthenticated` holds over the context's life: never before
      mounting, after mounting exactly when storage or the context held a
      user, after `login` exactly when it succeeded or a user was already
      signed in, and never after `logout`. */
  lemma AuthenticationLifecycle(s: AuthState, stored: Option<User>, email: string, password: string)
    ensures !IsAuthenticated(Initial(stored))
    ensures IsAuthenticated(Mount(s)) <==> s.stored.Some? || IsAuthenticated(s)
    ensures IsAuthenticated(Login(s, email, password).state) <==>
      Login(s, email, password).error.None? || IsAuthenticated(s)
    ensures !IsAuthenticated(Logout(s))
  {
  }

  /** The storage entry round-trips through a reload: after a successful
      sign-in, a fresh context that runs its mount effect comes back with the
      same user; after a sign-out it comes back with nobody. */
  lemma StorageSurvivesReload(s: AuthState, email: string, password: string)
    ensures var r := Login(s, email, password);
      r.error.None? ==> Mount(Initial(r.state.stored)).user == r.state.user
    ensures !IsAuthenticated(Mount(Initial(Logout(s).stored)))
  {
  }
}

=== FILE: auth_controller.dfy ===
/** The server's three request handlers over the user collection, read as
    transitions on a map from user id to account that return the HTTP status
    and message they reply with. Password hashing, the session token and its
    cookie, and database failures are not modelled. */
module AuthController {
  import opened Optional

  /** A stored user; `photo` is the base64 image saved for attendance. */
  datatype Account = Account(email: string, password: string, username: string, createdAt: string, photo: Option<string>)

  type Store = map<string, Account>

  /** The reply: status code, message, and the `success` flag when one is sent. */
  datatype Response = Response(status: nat, message: string, success: Option<bool>)

  /** A reply together with the store after the request. */
  datatype Reply = Reply(response: Response, store: Store)

  const MSG_USER_EXISTS: string := "User already exists"
  const MSG_SIGNED_UP: string := "User signed in successfully"
  const MSG_FIELDS_REQUIRED: string := "User ID and photo are required"
  const MSG_USER_NOT_FOUND: string := "User not found"
  const MSG_PHOTO_SAVED: string := "Photo saved successfully"
  const MSG_NOTHING_TO_COMPARE: string := "User or stored photo not found"
  const MSG_MATCHED: string := "Attendance marked! Face matched."
  const MSG_NOT_MATCHED: string := "Face does not match. Attendance not marked."

  /** JavaScript falsiness of a request field that is a string when present. */
  predicate Falsy(v: Option<string>) {
    v.None? || v.value == ""
  }

  /** Some stored account has this e-mail address (exact comparison). */
  predicate EmailTaken(store: Store, email: string) {
    exists id :: id in store && store[id].email == email
  }

  /** No two accounts share an e-mail address. */
  ghost predicate UniqueEmails(store: Store) {
    forall a, b :: a in store && b in store && store[a].email == store[b].email ==> a == b
  }

  /** `Signup`: refuse an address that is already registered (with the
      default status 200 and no new account); otherwise create the account
      under the fresh id the database assigns and reply 201. */
  function Signup(store: Store, email: string, password: string, username: string, createdAt: string, newId: string): (r: Reply)
    requires newId !in store
    ensures EmailTaken(store, email) ==> r == Reply(Response(200, MSG_USER_EXISTS, None), store)
    ensures !EmailTaken(store, email) ==> r.response == Response(201, MSG_SIGNED_UP, Some(true))
    ensures !EmailTaken(store, email) ==> r.store.Keys == store.Keys + {newId}
    ensures !EmailTaken(store, email) ==> r.store[newId] == Account(email, password, username, createdAt, None)
    ensures forall id :: id in store ==> id in r.store && r.store[id] == store[id]
  {
    if EmailTaken(store, email) then Reply(Response(200, MSG_USER_EXISTS, None), store)
    else Reply(Response(201, MSG_SIGNED_UP, Some(true)), store[newId := Account(email, password, username, createdAt, None)])
  }

  /** `saveFacePhoto`: 400 when either field is missing or empty, 404 for an
      unknown id, otherwise overwrite that account's photo and reply 200. */
  function SaveFacePhoto(store: Store, userId: Option<string>, photo: Option<string>): (r: Reply)
    ensures Falsy(userId) || Falsy(photo) ==> r == Reply(Response(400, MSG_FIELDS_REQUIRED, None), store)
    ensures !Falsy(userId) && !Falsy(photo) && userId.value !in store ==>
      r == Reply(Response(404, MSG_USER_NOT_FOUND, None), store)
    ensures r.response.status == 200 <==> !Falsy(userId) && !Falsy(photo) && userId.value in store
    ensures r.store.Keys == store.Keys
    ensures r.response.status == 200 ==>
      && r.response.message == MSG_PHOTO_SAVED
      && r.store[userId.value] == store[userId.value].(photo := photo)
    ensures forall id :: id in store && (r.response.status != 200 || id != userId.value) ==> id in r.store && r.store[id] == store[id]
  {
    if Falsy(userId) || Falsy(photo) then Reply(Response(400, MSG_FIELDS_REQUIRED, None), store)
    else if userId.value !in store then Reply(Response(404, MSG_USER_NOT_FOUND, None), store)
    else
      var id := userId.value;
      Reply(Response(200, MSG_PHOTO_SAVED, None), store[id := store[id].(photo := photo)])
  }

  /** `checkAttendance`: 400 when either field is missing or empty, 404 when
      the account or its photo is missing, otherwise 200 exactly when the
      stored base64 text equals the submitted one and 401 when it does not.
      The store is never changed. */
  function CheckAttendance(store: Store, userId: Option<string>, photo: Option<string>): (r: Reply)
    ensures r.store == store
    ensures Falsy(userId) || Falsy(photo) ==> r.response == Response(400, MSG_FIELDS_REQUIRED, None)
    ensures !Falsy(userId) && !Falsy(photo) && (userId.value !in store || Falsy(store[userId.value].photo)) ==>
      r.response == Response(404, MSG_NOTHING_TO_COMPARE, None)
    ensures r.response.status == 200 <==>
      !Falsy(userId) && !Falsy(photo) && userId.value in store && !Falsy(store[userId.value].photo)
      && store[userId.value].photo.value == photo.value
    ensures r.response.status == 200 ==> r.response == Response(200, MSG_MATCHED, Some(true))
    ensures r.response.status == 401 <==>
      !Falsy(userId) && !Falsy(photo) && userId.value in store && !Falsy(store[userId.value].photo)
      && store[userId.value].photo.value != photo.value
    ensures r.response.status == 401 ==> r.response == Response(401, MSG_NOT_MATCHED, Some(false))
  {
    if Falsy(userId) || Falsy(photo) then Reply(Response(400, MSG_FIELDS_REQUIRED, None), store)
    else if userId.value !in store || Falsy(store[userId.value].photo) then
      Reply(Response(404, MSG_NOTHING_TO_COMPARE, None), store)
    else if store[userId.value].photo.value == photo.value then
      Reply(Response(200, MSG_MATCHED, Some(true)), store)
    else Reply(Response(401, MSG_NOT_MATCHED, Some(false)), store)
  }

  /** Saving a photo and then checking attendance with the same photo
      matches; checking with any other non-empty photo does not. */
  lemma SaveThenCheck(store: Store, userId: string, photo: string, other: string)
    requires SaveFacePhoto(store, Some(userId), Some(photo)).response.status == 200
    requires other != "" && other != photo
    ensures CheckAttendance(SaveFacePhoto(store, Some(userId), Some(photo)).store, Some(userId), Some(photo)).response.status == 200
    ensures CheckAttendance(SaveFacePhoto(store, Some(userId), Some(photo)).store, Some(userId), Some(other)).response.status == 401
  {
  }

  /** The last photo saved is the one that matches. */
  lemma LastSaveWins(store: Store, userId: string, first: string, second: string)
    requires SaveFacePhoto(store, Some(userId), Some(first)).response.status == 200
    requires second != "" && second != first
    ensures var s := SaveFacePhoto(SaveFacePhoto(store, Some(userId), Some(first)).store, Some(userId), Some(second)).store;
      && CheckAttendance(s, Some(userId), Some(second)).response.status == 200
      && CheckAttendance(s, Some(userId), Some(first)).response.status == 401
  {
  }

  /** Saving the same photo twice leaves the same store as saving it once. */
  lemma SaveIsIdempotent(store: Store, userId: Option<string>, photo: Option<string>)
    ensures var once := SaveFacePhoto(store, userId, photo);
      SaveFacePhoto(once.store, userId, photo) == once
  {
  }

  /** A second sign-up with the address just registered is refused. */
  lemma SignupTwiceIsRefused(store: Store, email: string, password: string, username: string, createdAt: string,
                             newId: string, password': string, username': string, createdAt': string, newId': string)
    requires newId !in store
    requires newId' !in Signup(store, email, password, username, createdAt, newId).store
    ensures var s := Signup(store, email, password, username, createdAt, newId).store;
      Signup(s, email, password', username', createdAt', newId') == Reply(Response(200, MSG_USER_EXISTS, None), s)
  {
    var s := Signup(store, email, password, username, createdAt, newId).store;
    if !EmailTaken(store, email) {
      assert s[newId].email == email;
    }
  }

  /** Every handler keeps e-mail addresses unique. */
  lemma HandlersKeepEmailsUnique(store: Store, email: string, password: string, username: string, createdAt: string,
                                 newId: string, userId: Option<string>, photo: Option<string>)
    requires UniqueEmails(store) && newId !in store
    ensures UniqueEmails(Signup(store, email, password, username, createdAt, newId).store)
    ensures UniqueEmails(SaveFacePhoto(store, userId, photo).store)
    ensures UniqueEmails(CheckAttendance(store, userId, photo).store)
  {
  }
}

=== FILE: auth_guard.dfy ===
/** The route guard: a spinner while the context is loading, a replacing
    redirect to `/login` (remembering where the visitor came from) when the
    visitor is not signed in or has a role the route does not admit, and the
    guarded page otherwise. */
module AuthGuard {
  import opened Optional
  import opened AuthContext

  const LOGIN_PATH: string := "/login"

  /** What the guard renders; `fromPath` is the `state.from` location. */
  datatype Render = Spinner | Redirect(to: string, fromPath: string, replace: bool) | Children

  /** `checkAuth`, over the context's three values as it reads them. A present
      role list (even an empty one, since `[]` is truthy in JavaScript) must
      include the user's role. */
  function CheckAuth(isLoading: bool, isAuthenticated: bool, user: Option<User>, allowedRoles: Option<seq<string>>): (ok: bool)
    ensures ok <==> !isLoading && isAuthenticated
                    && (allowedRoles.None? || user.None? || user.value.role in allowedRoles.value)
  {
    if isLoading then false
    else if !isAuthenticated then false
    else if allowedRoles.Some? && user.Some? && user.value.role !in allowedRoles.value then false
    else true
  }

  /** The guard component for a visitor at `location`. */
  function Guard(auth: AuthState, allowedRoles: Option<seq<string>>, location: string): (r: Render)
    ensures auth.isLoading <==> r == Spinner
    ensures !auth.isLoading && !IsAuthenticated(auth) ==> r == Redirect(LOGIN_PATH, location, true)
    ensures !auth.isLoading && auth.user.Some? ==>
      (r == Children <==> allowedRoles.None? || auth.user.value.role in allowedRoles.value)
    ensures r != Spinner && r != Children ==> r == Redirect(LOGIN_PATH, location, true)
  {
    if auth.isLoading then Spinner
    else if !CheckAuth(auth.isLoading, IsAuthenticated(auth), auth.user, allowedRoles) then Redirect(LOGIN_PATH, location, true)
    else Children
  }

  /** An empty role list admits nobody, whoever is signed in. */
  lemma EmptyRoleListDeniesEveryone(auth: AuthState, location: string)
    requires !auth.isLoading
    ensures Guard(auth, Some([]), location) == Redirect(LOGIN_PATH, location, true)
  {
  }

  /** Without a role list every signed-in user gets the page. */
  lemma NoRoleListAdmitsEveryUser(auth: AuthState, location: string)
    requires !auth.isLoading && IsAuthenticated(auth)
    ensures Guard(auth, None, location) == Children
  {
  }

  /** A failed sign-in leaves the context loading, so every guarded page
      shows the spinner, even for a user who was signed in before. Signing
      out does not end this; the next successful sign-in or a reload does. */
  lemma FailedLoginKeepsGuardSpinning(s: AuthState, email: string, password: string,
                                      email': string, password': string, roles: Option<seq<string>>, location: string)
    requires Login(s, email, password).error.Some?
    ensures var failed := Login(s, email, password).state;
      && Guard(failed, roles, location) == Spinner
      && Guard(Logout(failed), roles, location) == Spinner
      && (Login(failed, email', password').error.None? ==> Guard(Login(failed, email', password').state, roles, location) != Spinner)
      && Guard(Mount(Initial(failed.stored)), roles, location) != Spinner
  {
  }
}

=== FILE: dashboard_page.dfy ===
/** The generic `/dashboard` page: a signed-in user of a known role is sent on,
    replacing the history entry, to their own dashboard. */
module DashboardPage {
  import opened Optional
  import opened AuthContext

  datatype Navigation = Navigation(to: string, replace: bool)

  /** The page's redirect effect. */
  function Redirect(user: Option<User>): (r: Option<Navigation>)
    ensures user.None? ==> r.None?
    ensures user.Some? ==> (r.Some? <==> IsUserRole(user.value.role))
    ensures r.Some? ==> r.value.replace
    ensures r.Some? ==> r.value.to != "/dashboard"
  {
    if user.None? then None
    else
      match user.value.role
      case "admin" => Some(Navigation("/admin/dashboard", true))
      case "sub-admin" => Some(Navigation("/subadmin/dashboard", true))
      case "student" => Some(Navigation("/student/dashboard", true))
      case _ => None
  }
}

=== FILE: login_page.dfy ===
/** The sign-in page: its form state, the submit and demo-account handlers,
    the redirect effect that runs once a sign-in has succeeded, and the
    sign-up form with its terms-and-conditions gate. Toasts are not modelled. */
module LoginPage {
  import opened Optional
  import opened AuthContext

  /** Every `useState` of the page. */
  datatype Form = Form(
    email: string, password: string,
    signupEmail: string, signupPassword: string, signupName: string,
    isLoading: bool, isSignupLoading: bool, loginSuccess: bool,
    termsAgreed: bool, receiveUpdates: bool)

  const INITIAL_FORM: Form := Form("", "", "", "", "", false, false, false, false, false)

  /** The page state after an effect, and where it navigated, if anywhere. */
  datatype Effect = Effect(form: Form, navigateTo: Option<string>)

  /** The redirect effect: once a sign-in has succeeded and a user is
      present, go to the role's dashboard (`/dashboard` for any other role)
      and clear the success flag. */
  function RedirectEffect(form: Form, user: Option<User>): (r: Effect)
    ensures !(form.loginSuccess && user.Some?) ==> r == Effect(form, None)
    ensures form.loginSuccess && user.Some? ==> r.form == form.(loginSuccess := false) && r.navigateTo.Some?
    ensures r.navigateTo.Some? ==>
      r.navigateTo.value in {"/admin/dashboard", "/subadmin/dashboard", "/student/dashboard", "/dashboard"}
  {
    if form.loginSuccess && user.Some? then
      var target :=
        match user.value.role
        case "admin" => "/admin/dashboard"
        case "sub-admin" => "/subadmin/dashboard"
        case "student" => "/student/dashboard"
        case _ => "/dashboard";
      Effect(form.(loginSuccess := false), Some(target))
    else Effect(form, None)
  }

  /** Opening the page fresh never redirects, even for a visitor who is
      already signed in: the success flag starts cleared. */
  lemma FreshPageDoesNotRedirect(user: Option<User>)
    ensures RedirectEffect(INITIAL_FORM, user) == Effect(INITIAL_FORM, None)
    ensures !INITIAL_FORM.loginSuccess && !INITIAL_FORM.termsAgreed && INITIAL_FORM.email == ""
  {
  }

  /** The page and context states after a handler has run. */
  datatype Submitted = Submitted(form: Form, auth: AuthState)

  /** The common tail of `handleSubmit` and `handleDemo`: set the page busy,
      sign in; on success raise the success flag, on failure clear the busy flag. */
  function SignIn(form: Form, auth: AuthState, email: string, password: string): (r: Submitted)
    ensures r.auth == Login(auth, email, password).state
    ensures Login(auth, email, password).error.None? ==> r.form == form.(isLoading := true, loginSuccess := true)
    ensures Login(auth, email, password).error.Some? ==> r.form == form.(isLoading := false)
  {
    var busy := form.(isLoading := true);
    var outcome := Login(auth, email, password);
    if outcome.error.None? then Submitted(busy.(loginSuccess := true), outcome.state)
    else Submitted(busy.(isLoading := false), outcome.state)
  }

  /** `handleSubmit`: sign in with the typed e-mail and password. */
  function HandleSubmit(form: Form, auth: AuthState): (r: Submitted)
    ensures r.form.loginSuccess <==> form.loginSuccess || Login(auth, form.email, form.password).error.None?
    ensures r.auth == Login(auth, form.email, form.password).state
    ensures r.form.email == form.email && r.form.password == form.password
  {
    SignIn(form, auth, form.email, form.password)
  }

  /** `handleDemo`'s choice of account: the role's own demo address, the
      administrator's for any other role. */
  function DemoEmail(role: string): (email: string)
    ensures role == SUB_ADMIN ==> email == SUB_ADMIN_EMAIL
    ensures role == STUDENT ==> email == STUDENT_EMAIL
    ensures role != SUB_ADMIN && role != STUDENT ==> email == ADMIN_EMAIL
  {
    match role
    case "admin" => ADMIN_EMAIL
    case "sub-admin" => SUB_ADMIN_EMAIL
    case "student" => STUDENT_EMAIL
    case _ => ADMIN_EMAIL
  }

  /** `handleDemo(role)`: sign in as the demo account for `role`; the typed
      fields of the form are not touched. */
  function HandleDemo(form: Form, auth: AuthState, role: string): (r: Submitted)
    ensures r.auth == Login(auth, DemoEmail(role), DEMO_PASSWORD).state
    ensures r.form.email == form.email && r.form.password == form.password
  {
    SignIn(form, auth, DemoEmail(role), DEMO_PASSWORD)
  }

  /** The sign-up form after submission, and whether an account was announced. */
  datatype SignupOutcome = SignupOutcome(form: Form, created: bool)

  /** `handleSignup`: refused, with nothing changed, unless the terms box is
      ticked; otherwise the sign-up fields and both boxes are cleared. */
  function HandleSignup(form: Form): (r: SignupOutcome)
    ensures !form.termsAgreed ==> r == SignupOutcome(form, false)
    ensures form.termsAgreed ==> r.created
    ensures form.termsAgreed ==>
      && r.form.signupEmail == "" && r.form.signupPassword == "" && r.form.signupName == ""
      && !r.form.termsAgreed && !r.form.receiveUpdates && !r.form.isSignupLoading
    ensures r.form.email == form.email && r.form.password == form.password
    ensures r.form.isLoading == form.isLoading && r.form.loginSuccess == form.loginSuccess
  {
    if !form.termsAgreed then SignupOutcome(form, false)
    else
      var busy := form.(isSignupLoading := true);
      SignupOutcome(busy.(signupEmail := "", signupPassword := "", signupName := "",
                          termsAgreed := false, receiveUpdates := false, isSignupLoading := false), true)
  }

  /** Because the terms box is cleared, submitting the sign-up form a second
      time without ticking it again is refused. */
  lemma SignupClosesTheGate(form: Form)
    requires HandleSignup(form).created
    ensures !HandleSignup(HandleSignup(form).form).created
  {
  }
}

=== FILE: navbar.dfy ===
/** The top navigation bar: avatar initials, the exact-match active-link test
    and its own copy of the role-to-dashboard mapping. */
module Navbar {
  import opened Optional
  import opened Strings
  import opened AuthContext

  /** `getInitials(name)`: the first character of every space-separated
      word, in order, upper-cased. */
  function GetInitials(name: string): (r: string)
    ensures r == ToUpper(WordStarts(name, ' ', true))
    ensures |r| <= |Split(name, ' ')|
    ensures ' ' !in r
  {
    var r := ToUpper(Heads(Split(name, ' ')));
    HeadsOfSplit(name, ' ');
    WordStartsAvoidSeparator(name, ' ', true);
    assert forall i :: 0 <= i < |r| ==> r[i] != ' ' by {
      forall i | 0 <= i < |r|
        ensures r[i] != ' '
      {
        UpperCharKeepsSpaces(WordStarts(name, ' ', true)[i]);
      }
    }
    r
  }

  /** The avatar's fallback text: the initials when the user has a non-empty
      name, `"U"` otherwise. */
  function AvatarFallback(user: Option<User>): (r: string)
    ensures user.None? || user.value.name == "" ==> r == "U"
    ensures user.Some? && user.value.name != "" ==> r == GetInitials(user.value.name)
  {
    if user.Some? && user.value.name != "" then GetInitials(user.value.name) else "U"
  }

  /** `isActive(path)`: exact equality with the current pathname. */
  predicate IsActive(path: string, pathname: string) {
    pathname == path
  }

  /** The navbar's `getDashboardPath`, a separate copy of the sidebar's. */
  function DashboardPath(user: Option<User>): (p: string)
    ensures p in {"/dashboard", "/admin/dashboard", "/subadmin/dashboard", "/student/dashboard"}
  {
    if user.None? then "/dashboard"
    else if user.value.role == ADMIN then "/admin/dashboard"
    else if user.value.role == SUB_ADMIN then "/subadmin/dashboard"
    else if user.value.role == STUDENT then "/student/dashboard"
    else "/dashboard"
  }

  /** Concrete initials: one per word, in order, upper-cased. */
  lemma InitialsExample()
    ensures GetInitials("ab cd") == "AC"
  {
    assert WordStarts("ab cd", ' ', true) == "ac";
  }

  /** The avatar text is empty exactly for a name made only of spaces: such
      a name is truthy, so it skips the `"U"` fallback, yet has no initials. */
  lemma BlankNameGivesEmptyAvatar(u: User)
    ensures AvatarFallback(Some(u)) == "" <==> u.name != "" && forall i :: 0 <= i < |u.name| ==> u.name[i] == ' '
  {
    NoWordStartsIffAllSeparators(u.name, ' ');
  }
}

=== FILE: optional.dfy ===
/** The nullable values of the application: `null`/`undefined` fields and
    absent records are `None`, present ones are `Some`. */
module Optional {

  datatype Option<+T> = None | Some(value: T)
}

=== FILE: role_consistency.dfy ===
/** The role-to-dashboard mapping is written out four times (sidebar, navbar,
    sign-in page, generic dashboard page). These lemmas show that the copies
    agree, that every dashboard a user is sent to is a route that lets that
    user in, and that the demo buttons always sign in. */
module RoleConsistency {
  import opened Optional
  import opened AuthContext
  import opened AuthGuard
  import opened AppRoutes
  import Strings
  import Sidebar
  import Navbar
  import LoginPage
  import DashboardPage

  /** The navbar's copy is the same function as the sidebar's. */
  lemma NavbarAgreesWithSidebar(user: Option<User>)
    ensures Navbar.DashboardPath(user) == Sidebar.DashboardPath(user)
  {
  }

  /** The sign-in page's redirect goes where the sidebar's dashboard link points. */
  lemma LoginRedirectAgreesWithSidebar(form: LoginPage.Form, user: Option<User>)
    requires form.loginSuccess && user.Some?
    ensures LoginPage.RedirectEffect(form, user).navigateTo == Some(Sidebar.DashboardPath(user))
  {
  }

  /** The generic dashboard page forwards known roles to the sidebar's target
      and leaves any other role where it is. */
  lemma DashboardPageAgreesWithSidebar(u: User)
    ensures IsUserRole(u.role) ==>
      DashboardPage.Redirect(Some(u)) == Some(DashboardPage.Navigation(Sidebar.DashboardPath(Some(u)), true))
    ensures !IsUserRole(u.role) ==>
      DashboardPage.Redirect(Some(u)).None? && Sidebar.DashboardPath(Some(u)) == DASHBOARD
  {
  }

  /** Every user's dashboard admits that user: the role dashboards their own
      role, and `/dashboard` (where any other role is sent) everyone signed in. */
  lemma DashboardAdmitsItsUser(u: User)
    ensures Admits(Sidebar.DashboardPath(Some(u)), u.role)
  {
    var p := Sidebar.DashboardPath(Some(u));
    if u.role == ADMIN {
      assert FirstWithPath(5, p);
    } else if u.role == SUB_ADMIN {
      assert FirstWithPath(6, p);
    } else if u.role == STUDENT {
      assert FirstWithPath(7, p);
    } else {
      assert FirstWithPath(4, p);
    }
  }

  /** The page a signed-in user's dashboard link shows, once loading is over. */
  function DashboardPageFor(role: string): (p: Page)
    ensures IsUserRole(role) ==> p != DashboardPage
    ensures !IsUserRole(role) ==> p == DashboardPage
  {
    if role == ADMIN then AdminDashboardPage
    else if role == SUB_ADMIN then SubAdminDashboardPage
    else if role == STUDENT then StudentDashboardPage
    else DashboardPage
  }

  /** So visiting one's dashboard shows the right page rather than bouncing
      to the sign-in page. */
  lemma VisitingOwnDashboard(auth: AuthState)
    requires !auth.isLoading && auth.user.Some?
    ensures Visit(Sidebar.DashboardPath(auth.user), auth) == Show(DashboardPageFor(auth.user.value.role))
  {
    var role := auth.user.value.role;
    if role == ADMIN {
      VisitDashboardRoute(auth, 5);
    } else if role == SUB_ADMIN {
      VisitDashboardRoute(auth, 6);
    } else if role == STUDENT {
      VisitDashboardRoute(auth, 7);
    } else {
      VisitDashboardRoute(auth, 4);
    }
  }

  /** One case of the above: the dashboard route at table index `k`. */
  lemma VisitDashboardRoute(auth: AuthState, k: nat)
    requires !auth.isLoading && auth.user.Some?
    requires k == (match auth.user.value.role
                   case "admin" => 5 case "sub-admin" => 6 case "student" => 7 case _ => 4)
    ensures Visit(Sidebar.DashboardPath(auth.user), auth) == Show(DashboardPageFor(auth.user.value.role))
  {
    assert FirstWithPath(k, Sidebar.DashboardPath(auth.user));
  }

  /** Every demo account signs in with the demo password, as the account of
      the requested role (the administrator for any other role). */
  lemma DemoLoginSucceeds(auth: AuthState, role: string)
    ensures Login(auth, LoginPage.DemoEmail(role), DEMO_PASSWORD).error.None?
    ensures var u := Login(auth, LoginPage.DemoEmail(role), DEMO_PASSWORD).state.user;
      u.Some? && u.value.role == (if role == SUB_ADMIN || role == STUDENT then role else ADMIN)
  {
    var email := LoginPage.DemoEmail(role);
    var i := if role == SUB_ADMIN then 1 else if role == STUDENT then 2 else 0;
    assert Matches(MOCK_USERS[i], email, DEMO_PASSWORD);
    LoginSignsInTheMatch(auth, email, DEMO_PASSWORD, i);
  }

  /** A demo button, followed by the page's redirect effect, lands on a
      dashboard that renders for the signed-in account. */
  lemma DemoButtonLandsOnOwnDashboard(form: LoginPage.Form, auth: AuthState, role: string)
    ensures var after := LoginPage.HandleDemo(form, auth, role);
      var effect := LoginPage.RedirectEffect(after.form, after.auth.user);
      && effect.navigateTo.Some?
      && !effect.form.loginSuccess
      && Visit(effect.navigateTo.value, after.auth) == Show(DashboardPageFor(after.auth.user.value.role))
  {
    DemoLoginSucceeds(auth, role);
    var after := LoginPage.HandleDemo(form, auth, role);
    LoginRedirectAgreesWithSidebar(after.form, after.auth.user);
    VisitingOwnDashboard(after.auth);
  }

  /** Away from dashboards, the sidebar's active test is the navbar's exact match. */
  lemma ActiveTestsAgreeOffDashboard(path: string, pathname: string, user: Option<User>)
    requires !Strings.Contains(path, "/dashboard")
    ensures Sidebar.IsActivePath(path, pathname, user) == Navbar.IsActive(path, pathname)
  {
  }
}

=== FILE: sidebar.dfy ===
/** The dashboard sidebar: the fixed menu table, its filtering by role with
    the "Dashboard" entry pointed at the role's own dashboard, the record of
    expanded sections, and the two "is this entry active" tests. Icons and
    styling are not modelled. */
module Sidebar {
  import opened Optional
  import opened Strings
  import opened AuthContext

  datatype SubItem = SubItem(title: string, path: string)

  datatype Item = Item(title: string, path: string, allowedRoles: seq<string>, subItems: Option<seq<SubItem>>)

  const DASHBOARD_TITLE: string := "Dashboard"

  const DASHBOARD_ITEM: Item := Item(DASHBOARD_TITLE, "/dashboard", [ADMIN, SUB_ADMIN, STUDENT], None)
  const PROFILE_ITEM: Item := Item("My Profile", "/profile", [ADMIN, SUB_ADMIN, STUDENT], Some([
    SubItem("Personal Info", "/profile/info"),
    SubItem("Change Password", "/profile/password"),
    SubItem("My Activity", "/profile/activity")]))
  const USERS_ITEM: Item := Item("User Management", "/users", [ADMIN], Some([
    SubItem("Add Users", "/users/add"),
    SubItem("Manage Users", "/users/manage")]))
  const FACE_ITEM: Item := Item("Face Recognition", "/face-recognition", [ADMIN, SUB_ADMIN], Some([
    SubItem("Register Face", "/face-recognition/register"),
    SubItem("Verification", "/face-recognition/verify")]))
  const ATTENDANCE_ITEM: Item := Item("Attendance", "/attendance", [ADMIN, SUB_ADMIN, STUDENT], Some([
    SubItem("Mark Attendance", "/attendance/mark"),
    SubItem("View Records", "/attendance/records")]))
  const REPORTS_ITEM: Item := Item("Reports", "/reports", [ADMIN, SUB_ADMIN], Some([
    SubItem("Daily Reports", "/reports/daily"),
    SubItem("Monthly Analysis", "/reports/monthly"),
    SubItem("Statistics", "/reports/statistics")]))
  const SETTINGS_ITEM: Item := Item("Settings", "/settings", [ADMIN, SUB_ADMIN, STUDENT], None)

  /** The menu, in display order. */
  const SIDEBAR_ITEMS: seq<Item> :=
    [DASHBOARD_ITEM, PROFILE_ITEM, USERS_ITEM, FACE_ITEM, ATTENDANCE_ITEM, REPORTS_ITEM, SETTINGS_ITEM]

  /** `getDashboardPath`: the signed-in user's own dashboard, `/dashboard`
      when nobody is signed in or the role is not one of the three. */
  function DashboardPath(user: Option<User>): (p: string)
    ensures user.None? ==> p == "/dashboard"
    ensures user.Some? && user.value.role == ADMIN ==> p == "/admin/dashboard"
    ensures user.Some? && user.value.role == SUB_ADMIN ==> p == "/subadmin/dashboard"
    ensures user.Some? && user.value.role == STUDENT ==> p == "/student/dashboard"
    ensures user.Some? && !IsUserRole(user.value.role) ==> p == "/dashboard"
  {
    if user.None? then "/dashboard"
    else if user.value.role == ADMIN then "/admin/dashboard"
    else if user.value.role == SUB_ADMIN then "/subadmin/dashboard"
    else if user.value.role == STUDENT then "/student/dashboard"
    else "/dashboard"
  }

  /** The entries whose role list includes `role`, in table order. */
  function KeepAllowed(items: seq<Item>, role: string): (r: seq<Item>)
    ensures |r| <= |items|
    decreases |items|
  {
    if |items| == 0 then []
    else (if role in items[0].allowedRoles then [items[0]] else []) + KeepAllowed(items[1..], role)
  }

  /** The kept entries are exactly the admitted ones. */
  lemma {:induction false} KeepAllowedExactlyAdmitted(items: seq<Item>, role: string)
    ensures forall x :: x in KeepAllowed(items, role) <==> x in items && role in x.allowedRoles
    decreases |items|
  {
    if |items| > 0 {
      KeepAllowedExactlyAdmitted(items[1..], role);
      assert items == [items[0]] + items[1..];
    }
  }

  /** Filtering distributes over concatenation: together with keeping exactly
      the admitted single entries, this says it is the order-preserving
      sub-sequence of admitted entries. */
  lemma {:induction false} KeepAllowedDistributes(a: seq<Item>, b: seq<Item>, role: string)
    ensures KeepAllowed(a + b, role) == KeepAllowed(a, role) + KeepAllowed(b, role)
    decreases |a|
  {
    if |a| > 0 {
      assert (a + b)[1..] == a[1..] + b;
      KeepAllowedDistributes(a[1..], b, role);
    } else {
      assert a + b == b;
    }
  }

  /** A single entry is kept exactly when its role list includes the role. */
  lemma KeepAllowedSingle(x: Item, role: string)
    ensures KeepAllowed([x], role) == if role in x.allowedRoles then [x] else []
  {
    assert [x][1..] == [];
  }

  /** Point the "Dashboard" entry at `path`; every other entry, and every
      other field, is left as it is. */
  function RewriteDashboard(items: seq<Item>, path: string): (r: seq<Item>)
    ensures |r| == |items|
    ensures forall i :: 0 <= i < |r| ==> r[i] == if items[i].title == DASHBOARD_TITLE then items[i].(path := path) else items[i]
  {
    seq(|items|, i requires 0 <= i < |items| =>
      if items[i].title == DASHBOARD_TITLE then items[i].(path := path) else items[i])
  }

  /** Only the first entry is titled "Dashboard". */
  lemma DashboardTitleUnique()
    ensures forall x :: x in SIDEBAR_ITEMS && x.title == DASHBOARD_TITLE ==> x == DASHBOARD_ITEM
  {
  }

  /** Which entries come out of the rewrite. */
  lemma RewriteDashboardMembers(items: seq<Item>, path: string)
    ensures forall x :: x in RewriteDashboard(items, path) && x.title != DASHBOARD_TITLE ==> x in items
    ensures forall x :: x in RewriteDashboard(items, path) && x.title == DASHBOARD_TITLE ==>
      exists y :: y in items && y.title == DASHBOARD_TITLE && x == y.(path := path)
    ensures forall y :: y in items && y.title != DASHBOARD_TITLE ==> y in RewriteDashboard(items, path)
    ensures forall y :: y in items && y.title == DASHBOARD_TITLE ==> y.(path := path) in RewriteDashboard(items, path)
  {
    var r := RewriteDashboard(items, path);
    forall x | x in r
      ensures x.title != DASHBOARD_TITLE ==> x in items
      ensures x.title == DASHBOARD_TITLE ==> exists y :: y in items && y.title == DASHBOARD_TITLE && x == y.(path := path)
    {
      var i :| 0 <= i < |r| && r[i] == x;
      assert items[i] in items;
    }
    forall y | y in items
      ensures y.title != DASHBOARD_TITLE ==> y in r
      ensures y.title == DASHBOARD_TITLE ==> y.(path := path) in r
    {
      var i :| 0 <= i < |items| && items[i] == y;
      assert r[i] in r;
    }
  }

  /** `filteredItems`: nothing without a user; otherwise the entries whose
      role list includes the user's role, the "Dashboard" entry pointed at the
      user's dashboard and every other entry exactly as in the table. */
  function FilteredItems(user: Option<User>): (r: seq<Item>)
    ensures user.None? ==> r == []
    ensures forall x :: x in r ==> user.Some? && user.value.role in x.allowedRoles
    ensures forall x :: x in r && x.title != DASHBOARD_TITLE ==> x in SIDEBAR_ITEMS
    ensures forall x :: x in r && x.title == DASHBOARD_TITLE ==> x == DASHBOARD_ITEM.(path := DashboardPath(user))
    ensures user.Some? ==> forall y :: y in SIDEBAR_ITEMS && user.value.role in y.allowedRoles && y.title != DASHBOARD_TITLE ==> y in r
    ensures user.Some? && user.value.role in DASHBOARD_ITEM.allowedRoles ==> DASHBOARD_ITEM.(path := DashboardPath(user)) in r
    ensures user.Some? ==> |r| == |KeepAllowed(SIDEBAR_ITEMS, user.value.role)|
  {
    if user.None? then []
    else
      var kept := KeepAllowed(SIDEBAR_ITEMS, user.value.role);
      KeepAllowedExactlyAdmitted(SIDEBAR_ITEMS, user.value.role);
      DashboardTitleUnique();
      RewriteDashboardMembers(kept, DashboardPath(user));
      RewriteDashboard(kept, DashboardPath(user))
  }

  /** Everything is kept when every entry admits the role. */
  lemma {:induction false} KeepAllowedAll(items: seq<Item>, role: string)
    requires forall x :: x in items ==> role in x.allowedRoles
    ensures KeepAllowed(items, role) == items
    decreases |items|
  {
    if |items| > 0 {
      KeepAllowedAll(items[1..], role);
      assert items == [items[0]] + items[1..];
    }
  }

  /** Administrators see all seven sections. */
  lemma AdminSeesEverySection()
    ensures KeepAllowed(SIDEBAR_ITEMS, ADMIN) == SIDEBAR_ITEMS
  {
    KeepAllowedAll(SIDEBAR_ITEMS, ADMIN);
  }

  /** Sub-administrators see every section except user management. */
  lemma SubAdminSeesAllButUserManagement()
    ensures KeepAllowed(SIDEBAR_ITEMS, SUB_ADMIN)
         == [DASHBOARD_ITEM, PROFILE_ITEM, FACE_ITEM, ATTENDANCE_ITEM, REPORTS_ITEM, SETTINGS_ITEM]
  {
    var front := [DASHBOARD_ITEM, PROFILE_ITEM];
    var back := [FACE_ITEM, ATTENDANCE_ITEM, REPORTS_ITEM, SETTINGS_ITEM];
    assert SUB_ADMIN !in USERS_ITEM.allowedRoles;
    assert SIDEBAR_ITEMS == front + ([USERS_ITEM] + back);
    KeepAllowedDistributes(front, [USERS_ITEM] + back, SUB_ADMIN);
    KeepAllowedDistributes([USERS_ITEM], back, SUB_ADMIN);
    KeepAllowedAll(front, SUB_ADMIN);
    KeepAllowedAll(back, SUB_ADMIN);
    KeepAllowedNone([USERS_ITEM], SUB_ADMIN);
  }

  /** Students see the dashboard, their profile, attendance and settings. */
  lemma StudentSeesFourSections()
    ensures KeepAllowed(SIDEBAR_ITEMS, STUDENT) == [DASHBOARD_ITEM, PROFILE_ITEM, ATTENDANCE_ITEM, SETTINGS_ITEM]
  {
    var front := [DASHBOARD_ITEM, PROFILE_ITEM];
    var staff := [USERS_ITEM, FACE_ITEM];
    var reports := [REPORTS_ITEM];
    assert STUDENT !in FACE_ITEM.allowedRoles && STUDENT !in REPORTS_ITEM.allowedRoles;
    assert SIDEBAR_ITEMS == front + (staff + ([ATTENDANCE_ITEM] + (reports + [SETTINGS_ITEM])));
    KeepAllowedDistributes(front, staff + ([ATTENDANCE_ITEM] + (reports + [SETTINGS_ITEM])), STUDENT);
    KeepAllowedDistributes(staff, [ATTENDANCE_ITEM] + (reports + [SETTINGS_ITEM]), STUDENT);
    KeepAllowedDistributes([ATTENDANCE_ITEM], reports + [SETTINGS_ITEM], STUDENT);
    KeepAllowedDistributes(reports, [SETTINGS_ITEM], STUDENT);
    KeepAllowedAll(front, STUDENT);
    KeepAllowedNone(staff, STUDENT);
    KeepAllowedAll([ATTENDANCE_ITEM], STUDENT);
    KeepAllowedNone(reports, STUDENT);
    KeepAllowedAll([SETTINGS_ITEM], STUDENT);
  }

  /** For a signed-in user the menu is the role filter followed by the
      dashboard rewrite. */
  lemma MenuOfSignedInUser(u: User)
    ensures FilteredItems(Some(u)) == RewriteDashboard(KeepAllowed(SIDEBAR_ITEMS, u.role), DashboardPath(Some(u)))
  {
  }

  /** The menu an administrator sees, entry by entry: all seven sections in
      table order, the "Dashboard" entry pointed at the administrator dashboard. */
  lemma AdminMenu(u: User)
    requires u.role == ADMIN
    ensures var m := FilteredItems(Some(u));
      |m| == 7 && m[0] == DASHBOARD_ITEM.(path := "/admin/dashboard") && m[1] == PROFILE_ITEM
      && m[2] == USERS_ITEM && m[3] == FACE_ITEM && m[4] == ATTENDANCE_ITEM && m[5] == REPORTS_ITEM
      && m[6] == SETTINGS_ITEM
  {
    AdminSeesEverySection();
    MenuOfSignedInUser(u);
    assert FilteredItems(Some(u)) == RewriteDashboard(SIDEBAR_ITEMS, "/admin/dashboard");
  }

  /** The menu a sub-administrator sees, entry by entry: every section but
      user management, in table order, the "Dashboard" entry pointed at their dashboard. */
  lemma SubAdminMenu(u: User)
    requires u.role == SUB_ADMIN
    ensures var m := FilteredItems(Some(u));
      |m| == 6 && m[0] == DASHBOARD_ITEM.(path := "/subadmin/dashboard") && m[1] == PROFILE_ITEM
      && m[2] == FACE_ITEM && m[3] == ATTENDANCE_ITEM && m[4] == REPORTS_ITEM
      && m[5] == SETTINGS_ITEM
  {
    SubAdminSeesAllButUserManagement();
    MenuOfSignedInUser(u);
    var kept := [DASHBOARD_ITEM, PROFILE_ITEM, FACE_ITEM, ATTENDANCE_ITEM, REPORTS_ITEM, SETTINGS_ITEM];
    var m := RewriteDashboard(kept, "/subadmin/dashboard");
    assert FilteredItems(Some(u)) == m;
    assert m[1] == kept[1] && m[2] == kept[2] && m[3] == kept[3] && m[4] == kept[4] && m[5] == kept[5];
  }

  /** The menu a student sees, entry by entry: Dashboard, My Profile,
      Attendance and Settings, in that order, the first pointed at the student dashboard. */
  lemma StudentMenu(u: User)
    requires u.role == STUDENT
    ensures var m := FilteredItems(Some(u));
      |m| == 4 && m[0] == DASHBOARD_ITEM.(path := "/student/dashboard") && m[1] == PROFILE_ITEM
      && m[2] == ATTENDANCE_ITEM && m[3] == SETTINGS_ITEM
  {
    StudentSeesFourSections();
    MenuOfSignedInUser(u);
    assert FilteredItems(Some(u)) == RewriteDashboard([DASHBOARD_ITEM, PROFILE_ITEM, ATTENDANCE_ITEM, SETTINGS_ITEM], "/student/dashboard");
  }

  /** A role outside the three sees an empty menu. */
  lemma UnknownRoleSeesNothing(role: string)
    requires !IsUserRole(role)
    ensures KeepAllowed(SIDEBAR_ITEMS, role) == []
  {
    KeepAllowedNone(SIDEBAR_ITEMS, role);
  }

  /** Nothing is kept when no entry admits the role. */
  lemma {:induction false} KeepAllowedNone(items: seq<Item>, role: string)
    requires forall x :: x in items ==> role !in x.allowedRoles
    ensures KeepAllowed(items, role) == []
    decreases |items|
  {
    if |items| > 0 {
      KeepAllowedNone(items[1..], role);
    }
  }

  /** Whether a section is expanded: a missing key reads as `undefined`, that is, collapsed. */
  predicate IsExpanded(expanded: map<string, bool>, title: string) {
    title in expanded && expanded[title]
  }

  /** `toggleExpand(title)`: `{ ...prev, [title]: !prev[title] }`. */
  function ToggleExpand(expanded: map<string, bool>, title: string): (r: map<string, bool>)
    ensures r.Keys == expanded.Keys + {title}
    ensures IsExpanded(r, title) == !IsExpanded(expanded, title)
    ensures forall t :: t in expanded && t != title ==> r[t] == expanded[t]
  {
    expanded[title := !IsExpanded(expanded, title)]
  }

  /** Toggling the same section twice restores what every section shows. */
  lemma ToggleTwiceRestores(expanded: map<string, bool>, title: string, t: string)
    ensures IsExpanded(ToggleExpand(ToggleExpand(expanded, title), title), t) == IsExpanded(expanded, t)
  {
  }

  /** `isActiveSection`: the entry has sub-entries and one of them is at `pathname`. */
  predicate IsActiveSection(item: Item, pathname: string): (r: bool)
    ensures r ==> item.subItems.Some? && |item.subItems.value| > 0
    ensures r <==> item.subItems.Some? && exists k :: 0 <= k < |item.subItems.value| && item.subItems.value[k].path == pathname
  {
    item.subItems.Some? && exists s :: s in item.subItems.value && s.path == pathname
  }

  /** The two sections without sub-entries are never active, whatever the page. */
  lemma LeafSectionsNeverActive(pathname: string)
    ensures !IsActiveSection(DASHBOARD_ITEM, pathname) && !IsActiveSection(SETTINGS_ITEM, pathname)
  {
  }

  /** The auto-expand effect: every listed section that holds the current
      page is set expanded; nothing else changes. */
  function AutoExpand(expanded: map<string, bool>, items: seq<Item>, pathname: string): (r: map<string, bool>)
    ensures forall x :: x in items && IsActiveSection(x, pathname) ==> IsExpanded(r, x.title)
    ensures forall t :: t in expanded ==> t in r
    ensures forall t :: t in r && (forall x :: x in items && IsActiveSection(x, pathname) ==> x.title != t) ==>
      t in expanded && r[t] == expanded[t]
    decreases |items|
  {
    if |items| == 0 then expanded
    else
      var next := if IsActiveSection(items[0], pathname) then expanded[items[0].title := true] else expanded;
      AutoExpand(next, items[1..], pathname)
  }

  /** `isActivePath`: a path mentioning `/dashboard` is active on itself and
      on the user's dashboard; any other path only on itself. */
  predicate IsActivePath(path: string, pathname: string, user: Option<User>): (r: bool)
    ensures pathname == path ==> r
    ensures r ==> pathname == path || pathname == DashboardPath(user)
    ensures pathname == DashboardPath(user) && pathname != path ==>
      (r <==> exists i :: OccursAt(path, "/dashboard", i))
  {
    ContainsIffOccurs(path, "/dashboard");
    if Contains(path, "/dashboard") then pathname == DashboardPath(user) || pathname == path
    else pathname == path
  }

  /** A string shorter than the pattern does not contain it. */
  lemma {:induction false} ShortDoesNotContain(s: string, sub: string)
    requires |s| < |sub|
    ensures !Contains(s, sub)
    decreases |s|
  {
    if |s| > 0 {
      ShortDoesNotContain(s[1..], sub);
    }
  }

  /** The face-recognition section's path does not mention `/dashboard`. */
  lemma FacePathAvoidsDashboard()
    ensures !Contains(FACE_ITEM.path, "/dashboard")
  {
    NoOccurrenceWithoutSlashD(FACE_ITEM.path, "/dashboard");
  }

  /** The attendance section's path does not mention `/dashboard`. */
  lemma AttendancePathAvoidsDashboard()
    ensures !Contains(ATTENDANCE_ITEM.path, "/dashboard")
  {
    NoOccurrenceWithoutSlashD(ATTENDANCE_ITEM.path, "/dashboard");
  }

  /** No menu path other than the dashboard's mentions `/dashboard`. */
  lemma OtherMenuPathsAvoidDashboard()
    ensures forall x :: x in SIDEBAR_ITEMS && x.title != DASHBOARD_TITLE ==> !Contains(x.path, "/dashboard")
  {
    forall x | x in SIDEBAR_ITEMS && x.title != DASHBOARD_TITLE
      ensures !Contains(x.path, "/dashboard")
    {
      if x.path == FACE_ITEM.path {
        FacePathAvoidsDashboard();
      } else if x.path == ATTENDANCE_ITEM.path {
        AttendancePathAvoidsDashboard();
      } else {
        assert |x.path| < 10;
        ShortDoesNotContain(x.path, "/dashboard");
      }
    }
  }

  /** A text in which no `/` is followed by `d` contains no `/d...` pattern. */
  lemma NoOccurrenceWithoutSlashD(s: string, sub: string)
    requires |sub| >= 2 && sub[0] == '/' && sub[1] == 'd'
    requires forall j :: 0 <= j < |s| - 1 && s[j] == '/' ==> s[j + 1] != 'd'
    ensures !Contains(s, sub)
  {
    ContainsIffOccurs(s, sub);
  }

  /** In the menu as built, the dashboard special case of `isActivePath`
      changes nothing: every shown entry is active exactly on its own path. */
  lemma MenuActiveIsExactMatch(user: Option<User>, pathname: string)
    ensures forall x :: x in FilteredItems(user) ==> (IsActivePath(x.path, pathname, user) <==> pathname == x.path)
  {
    OtherMenuPathsAvoidDashboard();
  }
}

=== FILE: strings.dfy ===
/** The handful of JavaScript string operations the application relies on:
    `toLowerCase`, `toUpperCase`, `split(" ")`, `join`, `includes`, and the
    word-initials idiom `split(" ").map(n => n[0]).join("")`. */
module Strings {

  /** ASCII lower-casing of one character; every other character is kept. */
  function LowerChar(c: char): char {
    if 'A' <= c <= 'Z' then (c as int + 32) as char else c
  }

  /** ASCII upper-casing of one character; every other character is kept. */
  function UpperChar(c: char): char {
    if 'a' <= c <= 'z' then (c as int - 32) as char else c
  }

  /** `s.toLowerCase()`: same length, each character lower-cased. */
  function ToLower(s: string): (r: string)
    ensures |r| == |s|
    ensures forall i :: 0 <= i < |s| ==> r[i] == LowerChar(s[i])
  {
    seq(|s|, i requires 0 <= i < |s| => LowerChar(s[i]))
  }

  /** `s.toUpperCase()`: same length, each character upper-cased. */
  function ToUpper(s: string): (r: string)
    ensures |r| == |s|
    ensures forall i :: 0 <= i < |s| ==> r[i] == UpperChar(s[i])
  {
    seq(|s|, i requires 0 <= i < |s| => UpperChar(s[i]))
  }

  /** Lower-casing twice is lower-casing once, so comparing lower-cased
      strings is an equivalence on strings. */
  lemma ToLowerIdempotent(s: string)
    ensures ToLower(ToLower(s)) == ToLower(s)
  {
    forall i | 0 <= i < |s|
      ensures ToLower(ToLower(s))[i] == ToLower(s)[i]
    {
      assert LowerChar(LowerChar(s[i])) == LowerChar(s[i]);
    }
  }

  /** Upper-casing never produces a space from a non-space character, and
      keeps every space. */
  lemma UpperCharKeepsSpaces(c: char)
    ensures UpperChar(c) == ' ' <==> c == ' '
  {
  }

  /** `s.split([sep])` for a one-character separator: the pieces between
      consecutive separators, including empty ones; `"".split(" ")` is `[""]`. */
  function Split(s: string, sep: char): (parts: seq<string>)
    ensures |parts| >= 1
    ensures forall i :: 0 <= i < |parts| ==> sep !in parts[i]
    decreases |s|
  {
    if |s| == 0 then [""]
    else
      var rest := Split(s[1..], sep);
      if s[0] == sep then [""] + rest
      else [[s[0]] + rest[0]] + rest[1..]
  }

  /** `parts.join([sep])`. */
  function Join(parts: seq<string>, sep: char): string
    decreases |parts|
  {
    if |parts| == 0 then ""
    else if |parts| == 1 then parts[0]
    else parts[0] + [sep] + Join(parts[1..], sep)
  }

  /** Number of occurrences of `c` in `s`. */
  function Occurrences(s: string, c: char): nat
    decreases |s|
  {
    if |s| == 0 then 0
    else (if s[0] == c then 1 else 0) + Occurrences(s[1..], c)
  }

  /** Splitting then joining with the same separator gives back the string,
      and there is exactly one more piece than there are separators. */
  lemma {:induction false} SplitJoinRoundTrip(s: string, sep: char)
    ensures Join(Split(s, sep), sep) == s
    ensures |Split(s, sep)| == Occurrences(s, sep) + 1
    decreases |s|
  {
    if |s| > 0 {
      var rest := Split(s[1..], sep);
      SplitJoinRoundTrip(s[1..], sep);
      if s[0] == sep {
        assert Split(s, sep) == [""] + rest;
        assert ([""] + rest)[1..] == rest;
      } else {
        var parts := [[s[0]] + rest[0]] + rest[1..];
        assert Split(s, sep) == parts;
        if |rest| == 1 {
          assert Join(parts, sep) == [s[0]] + rest[0];
        } else {
          assert parts[1..] == rest[1..];
          assert Join(rest, sep) == rest[0] + [sep] + Join(rest[1..], sep);
        }
        assert s == [s[0]] + s[1..];
      }
    }
  }

  /** The first character of every non-empty piece, in order. An empty piece
      contributes nothing, as `""[0]` is `undefined` and `join` renders that
      as the empty string. */
  function Heads(parts: seq<string>): (r: string)
    ensures |r| <= |parts|
    decreases |parts|
  {
    if |parts| == 0 then ""
    else (if |parts[0]| > 0 then [parts[0][0]] else "") + Heads(parts[1..])
  }

  /** Independent reference for the initials of a text: the characters of `s`
      that are not `sep` and stand first or right after a `sep`. `atStart`
      says whether the position before `s` was a word boundary. */
  function WordStarts(s: string, sep: char, atStart: bool): string
    decreases |s|
  {
    if |s| == 0 then ""
    else (if s[0] != sep && atStart then [s[0]] else "") + WordStarts(s[1..], sep, s[0] == sep)
  }

  /** The heads of the split pieces are exactly the word-start characters;
      the pieces after the first carry the word starts of a text that does
      not begin at a boundary. */
  lemma {:induction false} HeadsOfSplit(s: string, sep: char)
    ensures Heads(Split(s, sep)) == WordStarts(s, sep, true)
    ensures Heads(Split(s, sep)[1..]) == WordStarts(s, sep, false)
    decreases |s|
  {
    if |s| > 0 {
      var t := s[1..];
      var rest := Split(t, sep);
      HeadsOfSplit(t, sep);
      if s[0] == sep {
        var parts := [""] + rest;
        assert Split(s, sep) == parts;
        assert parts[1..] == rest;
        assert Heads(parts) == Heads(rest);
      } else {
        var parts := [[s[0]] + rest[0]] + rest[1..];
        assert Split(s, sep) == parts;
        assert parts[1..] == rest[1..];
        assert Heads(parts) == [s[0]] + Heads(rest[1..]);
      }
    }
  }

  /** A word-start character is never the separator. */
  lemma {:induction false} WordStartsAvoidSeparator(s: string, sep: char, atStart: bool)
    ensures sep !in WordStarts(s, sep, atStart)
    decreases |s|
  {
    if |s| > 0 {
      WordStartsAvoidSeparator(s[1..], sep, s[0] == sep);
    }
  }

  /** A text has no word starts exactly when it is all separators. */
  lemma {:induction false} NoWordStartsIffAllSeparators(s: string, sep: char)
    ensures WordStarts(s, sep, true) == "" <==> forall i :: 0 <= i < |s| ==> s[i] == sep
    decreases |s|
  {
    if |s| > 0 {
      NoWordStartsIffAllSeparators(s[1..], sep);
      if s[0] == sep {
        assert forall i :: 1 <= i < |s| ==> s[i] == s[1..][i - 1];
      }
    }
  }

  /** `sub` occurs in `s` starting at index `i`. */
  ghost predicate OccursAt(s: string, sub: string, i: int) {
    0 <= i && i + |sub| <= |s| && s[i..i + |sub|] == sub
  }

  /** `s.includes(sub)`. */
  predicate Contains(s: string, sub: string)
    decreases |s|
  {
    (|sub| <= |s| && s[..|sub|] == sub) || (|s| > 0 && Contains(s[1..], sub))
  }

  /** `Contains` holds exactly when `sub` occurs at some index of `s`. */
  lemma {:induction false} ContainsIffOccurs(s: string, sub: string)
    ensures Contains(s, sub) <==> exists i :: OccursAt(s, sub, i)
    decreases |s|
  {
    if |sub| <= |s| && s[..|sub|] == sub {
      assert OccursAt(s, sub, 0);
    } else if |s| > 0 {
      ContainsIffOccurs(s[1..], sub);
      if Contains(s[1..], sub) {
        var i :| OccursAt(s[1..], sub, i);
        assert s[1..][i..i + |sub|] == s[i + 1..i + 1 + |sub|];
        assert OccursAt(s, sub, i + 1);
      } else if exists i :: OccursAt(s, sub, i) {
        var i :| OccursAt(s, sub, i);
        assert i != 0;
        assert s[1..][i - 1..i - 1 + |sub|] == s[i..i + |sub|];
        assert OccursAt(s[1..], sub, i - 1);
        assert false;
      }
    }
  }
}
